=== FILE: README.md ===
# SyferText utilities — a Dafny model

This project models the pure core of SyferText's utility layer:

- **slice normalisation** (`normalize_slice`): possibly-`None`, possibly-negative slice bounds become clamped bounds `0 <= start <= stop <= length`, and stepped slices are refused;
- **state queries and cache paths** (`create_state_query`, the path strings built inside `search_resource`): a query is `"<pipeline>:<state>"`; its cached copy is `<home>/SyferText/cache/<pipeline>` + `"/" + query.replace(":", "-") + ".pkl"`;
- **tiered resource search** (`search_resource`): the local worker, then the on-disk cache, then each known worker in iteration order, stopping at the first hit; a tier answering with several objects fails the ambiguity assertion;
- **MPC participant selection** (`create_mpc_config`): the known workers except the one keyed `"me"`; none gives `{}`, one gives `None`, two fill `node_0`/`node_1` and repeat `node_1` as `node_2`, three or more are drawn without replacement into `node_0`, `node_1`, `node_2`;
- **msgpack codes** (`MsgpackCodeGenerator`): the code of a class is the token hash (`hash_string`) of its name;
- **tokenizer expression builders** (`compile_prefix_regex`, `compile_suffix_regex`, `compile_infix_regex`): blank rules are dropped, each rule is decorated (`^` before, `$` after, or nothing), and the results are joined with `|`. The prefix builder escapes every rule when one of the rules *is* `"("`.

Everything is a pure function. I/O and randomness come in as parameters:

- The filesystem, the unpickler's result, the local worker's `search` answer and each known worker's `request_search` answer form a `World` value (`Resolver.World`).
- The random draw of `np.random.choice` is a `Draw` of three distinct positions (`Mpc.Draw`).
- MurmurHash3 is a function parameter (`Hashing.Murmur3x64`).
- `re.escape` is a function parameter.

The Python `str` operations the code relies on (`strip`, `join`, `split` on one character, `replace` of one character) are modelled in `PyStr`, together with their round trips. `os.path.join` is modelled with its POSIX behaviour: an absolute component discards everything before it.

Modules and files:

| file | module | models |
|---|---|---|
| `wrappers.dfy` | `Wrappers` | `Option` / `Result` |
| `seqs.dfy` | `Seqs` | order-preserving filtering (the comprehensions with `if`) |
| `pystr.dfy` | `PyStr` | `str.strip`, `str.join`, `str.split`, `str.replace` |
| `slices.dfy` | `Slices` | `normalize_slice` |
| `hashing.dfy` | `Hashing` | `hash_string`, `MsgpackCodeGenerator` |
| `queries.dfy` | `Queries` | `create_state_query`, cache directory and file name |
| `resolver.dfy` | `Resolver` | `search_resource` |
| `mpc.dfy` | `Mpc` | `create_mpc_config` |
| `tokenizer_regex.dfy` | `TokenizerRegex` | `compile_prefix_regex`, `compile_suffix_regex`, `compile_infix_regex` |

Behaviour of the code worth knowing (the model follows it):

- The excluded worker is the one whose key is literally `"me"` (`syfertext/utils.py:270`). A local worker registered under another id stays eligible.
- The docstring of `create_mpc_config` names `config['crypto_provider']` (`syfertext/utils.py:253`), but the code stores the crypto provider under `node_2`. This holds in the two-worker case (`mpc_config["node_2"] = mpc_config["node_1"]`, `syfertext/utils.py:287`) and in the three-or-more case.
- The comment at `syfertext/utils.py:273` calls the single remaining worker "the owner", but the count is taken after `"me"` is removed. Zero eligible workers give an empty configuration, and only exactly one eligible worker gives `None`. So a worker that knows only itself gets `{}`.
- A `:` inside a pipeline or state name is not rejected. Two different name pairs can then build the same query (`Queries.QueryAmbiguousWithSeparatorInName`), and the cache directory is named after the part before the first `:` (`Queries.PipelineSegment`).
- `search_resource` returns the object itself, or the pointer a remote search returned, with no record of the tier it came from. The model's `Found(obj)` carries just that object.
- Ambiguity is a Python `assert`. It is modelled as the `Ambiguous` outcome naming the worker. A cache file whose unpickling raises is modelled as the `CorruptCache` outcome: the exception leaves `search_resource` and the network is not searched.

## Model

| member | source | states |
|---|---|---|
| Slices.NormalizeSlice | syfertext/utils.py:43-69 | The result is a success exactly when the step is `None` or 1; otherwise it is the failed step assertion. For `length >= 0` the bounds satisfy `0 <= start <= stop <= length`. For a negative length both bounds collapse onto `length`. |
| Slices.NormalizeSliceSelectsSameItems | syfertext/utils.py:45-67 | For every index `k`, `start <= k < stop` holds exactly when Python's `seq[start:stop]` on `length` items selects item `k`. A missing start means the beginning, a missing stop means the end, and negative bounds count from the end. |
| Slices.NormalizeSliceDefaults | syfertext/utils.py:45-59 | For a non-negative `length` and no step or a step of 1, a `None` start becomes 0 and a `None` stop becomes `length`, each whatever the other bound is (so `normalize_slice(6, None, -10)` is `(0, 0)`). |
| Slices.NormalizeSliceExample | syfertext/utils.py:31 | Length 6, start -4, stop -1 gives `(2, 5)`. |
| Slices.NormalizeSliceIdempotent | syfertext/utils.py:53-67 | Normalising already normalised bounds returns them unchanged. |
| Hashing.HashString | syfertext/utils.py:18-26 | No contract, since MurmurHash3 is a parameter; characterised by `Hashing.MsgpackCodeDependsOnlyOnSeededFirstHalf`. |
| Hashing.MsgpackCode | syfertext/utils.py:222-233 | No contract; characterised by `Hashing.MsgpackCodeDependsOnlyOnSeededFirstHalf`. |
| Hashing.MsgpackCodeDependsOnlyOnSeededFirstHalf | syfertext/utils.py:18-233 | A class's msgpack code equals the token hash of its name. It depends only on the first 64-bit half of the MurmurHash3 digest with the fixed seed 1. |
| PyStr.StripLeading | syfertext/tokenizers/utils.py:22-25 | The result is a suffix of the input and does not start with whitespace. It is empty exactly when the input is all whitespace. |
| PyStr.StripLeadingCutsBlank | syfertext/tokenizers/utils.py:22-25 | Everything `PyStr.StripLeading` cuts off in front is whitespace. |
| PyStr.StripTrailing | syfertext/tokenizers/utils.py:22-25 | The result is a prefix of the input and does not end with whitespace. It is empty exactly when the input is all whitespace. |
| PyStr.StripTrailingCutsBlank | syfertext/tokenizers/utils.py:22-25 | Everything `PyStr.StripTrailing` cuts off at the end is whitespace. |
| PyStr.Strip | syfertext/tokenizers/utils.py:22-25 | No contract of its own: it is `PyStr.StripLeading` followed by `PyStr.StripTrailing`; its truthiness is characterised by `PyStr.StripEmptyIffBlank`. |
| PyStr.Join | syfertext/tokenizers/utils.py:22-25 | The first part is a prefix of the join. The full behaviour is characterised by `PyStr.JoinSplit` and `PyStr.SplitJoin`. |
| PyStr.ReplaceChar | syfertext/utils.py:179 | Same length as the input; every `a` becomes `b` and every other character is kept in place. |
| PyStr.StripEmptyIffBlank | syfertext/tokenizers/utils.py:25 | `piece.strip()` is empty exactly when `piece` consists only of Python whitespace. |
| PyStr.Split | syfertext/utils.py:178 | `query.split(":")` has at least one part, and no part contains `:`. |
| PyStr.JoinSplit | syfertext/utils.py:178 | Joining the parts of a split with the separator rebuilds the string. |
| PyStr.SplitJoin | syfertext/utils.py:178 | Splitting a join of separator-free parts gives back the parts. |
| PyStr.ReplaceCharRemoves | syfertext/utils.py:179 | After `replace(":", "-")` no `:` is left. |
| PyStr.ReplaceIsJoinOfSplit | syfertext/utils.py:179 | `s.replace(a, b)` equals `b.join(s.split(a))`. |
| Queries.CreateStateQuery | syfertext/utils.py:137 | The query has the pipeline name as prefix, then `:`, then the state name as suffix; its length is the sum of the two lengths plus one. |
| Queries.QueryRoundTrip | syfertext/utils.py:137 | If neither name contains `:`, splitting the query on `:` gives exactly `[pipeline_name, state_name]`. |
| Queries.QueryInjective | syfertext/utils.py:137 | For `:`-free names, equal queries mean equal name pairs. |
| Queries.QueryAmbiguousWithSeparatorInName | syfertext/utils.py:123-139 | Names containing `:` are accepted, and `("a:b", "c")` and `("a", "b:c")` give the same query. |
| Queries.PipelineSegment | syfertext/utils.py:178-182 | `tokens[0]` contains no `:`, is a prefix of the query, and is either the whole query or followed in it by a `:`. So it is exactly the run before the first `:`. |
| Queries.SeparatorInNameShortensSegment | syfertext/utils.py:178-182 | For the names `("a:b", "c")` the pipeline directory is `a`, not `a:b`. |
| Queries.PathJoin | syfertext/utils.py:175-182 | No contract; characterised case by case by `Queries.PathJoinShape`. |
| Queries.PathJoinShape | syfertext/utils.py:175-182 | `os.path.join(a, b)` always ends with `b`. For a relative `b` it starts with `a` and is at most one character (the inserted `/`) longer than `a` and `b` together. The `/` is inserted exactly when `b` is relative and `a` is non-empty and does not end in `/`; otherwise a relative `b` is appended directly. An absolute `b` is the whole result. |
| Queries.CacheRoot | syfertext/utils.py:175 | No contract; characterised by `Queries.CacheRootOfHome`. |
| Queries.CacheDirectory | syfertext/utils.py:175-182 | No contract; characterised by `Queries.CacheDirectoryOfStateQuery` and `Queries.AbsoluteSegmentEscapesCacheRoot`. |
| Queries.CachePath | syfertext/utils.py:175-188 | No contract; characterised by `Queries.CachePathOfStateQuery`. |
| Queries.CacheFileName | syfertext/utils.py:179-186 | The target file name contains no `:`. |
| Queries.CacheFileNameOfQuery | syfertext/utils.py:179-186 | The file name is `"/"`, then the query's `:`-separated segments joined with `-`, then `.pkl`. |
| Queries.CacheRootOfHome | syfertext/utils.py:175 | For a non-empty home directory with no trailing `/`, the cache root is `<home>/SyferText/cache`. |
| Queries.CacheDirectoryOfStateQuery | syfertext/utils.py:175-182 | Provided neither name contains `:`, the pipeline name does not start with `/`, and the home directory is non-empty with no trailing `/`: the cache directory of the state query is `<home>/SyferText/cache/<pipeline>`. |
| Queries.CacheFileNameOfStateQuery | syfertext/utils.py:179-186 | Provided neither name contains `:`: the target of the state query is `/<pipeline>-<state>.pkl`. |
| Queries.CachePathOfStateQuery | syfertext/utils.py:175-188 | Provided neither name contains `:`, the pipeline name does not start with `/`, and the home directory is non-empty with no trailing `/`: the cached copy of state `s` of pipeline `p` is at `<home>/SyferText/cache/<p>/<p>-<s>.pkl`. |
| Queries.AbsoluteSegmentEscapesCacheRoot | syfertext/utils.py:182 | For every query whose pipeline segment is an absolute path, that segment is the whole cache directory: the home directory and the cache root are discarded. |
| Queries.AbsoluteSegmentExample | syfertext/utils.py:182 | The query `"/tmp:x"` is cached under directory `/tmp`, whatever the home directory. |
| Resolver.ReadCache | syfertext/utils.py:184-195 | The cache read is a miss exactly when the pipeline directory is missing, or the file is missing, not a regular file, or empty. A hit returns the unpickled content. An unpicklable file is reported with its path. |
| Resolver.NetworkSearch | syfertext/utils.py:197-215 | It returns `None` exactly when every worker answers empty, and then every worker was asked. Otherwise every worker before the last one asked answered empty, and the last one asked decides the result: its single element, or the ambiguity failure for that worker. |
| Resolver.SearchResource | syfertext/utils.py:142-215 | Never more requests than known workers. A non-empty local answer consults neither the cache nor the network. Any request implies no local match and no present cache file (a regular, non-empty file inside an existing pipeline directory). |
| Resolver.LocalAnswerShortCircuits | syfertext/utils.py:161-172 | With a non-empty local answer, the result does not depend on the cache or the workers. One match is returned; several fail the ambiguity assertion. |
| Resolver.CacheHitSkipsNetwork | syfertext/utils.py:184-195 | With no local match and a present, decodable cache file, its content is returned without any request, whatever the workers hold. |
| Resolver.CorruptCacheStopsSearch | syfertext/utils.py:184-195 | With no local match, a present cache file that fails to unpickle ends the search with `CorruptCache` naming its path, after the cache check and with no request: it is neither a miss nor a `None`. |
| Resolver.CacheMissFallsThrough | syfertext/utils.py:184-202 | A missing directory, a missing, non-regular or empty file is a miss and the search continues with the workers. |
| Resolver.FirstRemoteHitWins | syfertext/utils.py:199-215 | After workers that all answered empty, the first worker with exactly one object gives that object, after `k + 1` requests. No later worker is asked. |
| Resolver.NotFoundIffNothingAnywhere | syfertext/utils.py:161-215 | `None` is returned exactly when there is no local match, no present cache file (a regular, non-empty file inside an existing pipeline directory, whether it unpickles or not) and every worker answers empty. Every worker is then asked. |
| Resolver.FoundComesFromATier | syfertext/utils.py:161-215 | A returned object is the only local match, the unpickled cache file, or the only match of some worker. |
| Resolver.RemoteAmbiguityIsFatal | syfertext/utils.py:205-210 | The first non-empty worker answer with several objects fails the assertion for that worker, whatever later workers hold. |
| Resolver.ScenarioFirstWorkerHolds | syfertext/utils.py:199-215 | For `"modelA:vocab"` with nothing local and an empty filesystem, the first of two workers holding one pointer gives that pointer after one request. |
| Mpc.Eligible | syfertext/utils.py:267-271 | No contract; characterised by `Mpc.EligibleMembers` (membership) and `Mpc.MpcConfigTwoWorkers` (positions in the dictionary). |
| Mpc.CreateMpcConfig | syfertext/utils.py:267-301 | `None` exactly when one eligible worker remains. An empty configuration when none remains. With two or more, exactly the keys `node_0`, `node_1`, `node_2`. |
| Mpc.EligibleMembers | syfertext/utils.py:267-271 | A worker is eligible exactly when it is known and not keyed `"me"`. |
| Mpc.MpcConfigNeverSelectsMe | syfertext/utils.py:267-299 | Every worker in the configuration is a known worker whose key is not `"me"`. |
| Mpc.MpcConfigTwoWorkers | syfertext/utils.py:267-287 | With exactly two eligible workers, they sit at positions `i < j` of the dictionary, have different ids, and every other entry is keyed `"me"`. `node_0` is the worker at `i`, `node_1` the one at `j`, and `node_2` is the same worker as `node_1`. |
| Mpc.MpcConfigThreeDistinct | syfertext/utils.py:292-299 | With three or more eligible workers and any draw without replacement, the three keys map to workers of three pairwise distinct ids, none of them `"me"`. |
| Mpc.MpcConfigTooFewWorkers | syfertext/utils.py:273-279 | Only `"me"` known gives `{}`; `"me"` plus one other gives `None`. |
| TokenizerRegex.PrefixExpression | syfertext/tokenizers/utils.py:20-26 | No contract; characterised by `TokenizerRegex.EmptyExpressionIffAllBlank`, `TokenizerRegex.BlankRuleIsIgnored`, `TokenizerRegex.PrefixExpressionOfPair` and `TokenizerRegex.PrefixExpressionAlternatives`. |
| TokenizerRegex.SuffixExpression | syfertext/tokenizers/utils.py:37 | No contract; characterised by `TokenizerRegex.EmptyExpressionIffAllBlank`, `TokenizerRegex.BlankRuleIsIgnored`, `TokenizerRegex.SuffixExpressionAlternatives` and `TokenizerRegex.ExpressionOfConcatenation`. |
| TokenizerRegex.InfixExpression | syfertext/tokenizers/utils.py:50 | No contract; characterised by `TokenizerRegex.EmptyExpressionIffAllBlank`, `TokenizerRegex.BlankRuleIsIgnored`, `TokenizerRegex.InfixExpressionAlternatives` and `TokenizerRegex.ExpressionOfConcatenation`. |
| TokenizerRegex.RetainedIsNonBlankInOrder | syfertext/tokenizers/utils.py:25 | A rule is kept exactly when it is not all whitespace. Filtering distributes over concatenation, so the kept rules stay in their original order. |
| TokenizerRegex.EmptyExpressionIffAllBlank | syfertext/tokenizers/utils.py:20-50 | Each of the three expressions is empty exactly when every rule is blank (no rules included). |
| TokenizerRegex.BlankRuleIsIgnored | syfertext/tokenizers/utils.py:20-50 | Inserting a blank rule anywhere changes none of the three expressions. |
| TokenizerRegex.PrefixExpressionOfPair | syfertext/tokenizers/utils.py:20-25 | For two non-blank rules `a`, `b` (leading or trailing whitespace allowed): the expression is `^a\|^b` when neither rule is `"("`, and `^` + escape(a) + `\|^` + escape(b) when one of them is. |
| TokenizerRegex.ParenInsideRuleDoesNotEscape | syfertext/tokenizers/utils.py:20-25 | Escaping is decided by list membership, not substring search: `("(a", "b")` gives `^(a\|^b` unescaped. |
| TokenizerRegex.ParenRuleEscapesAll | syfertext/tokenizers/utils.py:20-22 | A rule equal to `"("` escapes every kept rule: `("(", "b")` gives `^` + escape("(") + `\|^` + escape("b"). |
| TokenizerRegex.PrefixExpressionAlternatives | syfertext/tokenizers/utils.py:20-25 | Provided at least one rule is kept, no kept rule contains `\|`, and, when `"("` is a rule, no escaped kept rule contains `\|`: split on `\|`, the prefix expression gives one alternative per kept rule, in order. Each is `^` followed by the rule, escaped exactly when `"("` is a rule. |
| TokenizerRegex.SuffixExpressionAlternatives | syfertext/tokenizers/utils.py:37 | Provided at least one rule is kept and no kept rule contains `\|`: split on `\|`, the suffix expression gives one alternative per kept rule, in order, each the rule followed by `$`. |
| TokenizerRegex.InfixExpressionAlternatives | syfertext/tokenizers/utils.py:50 | Provided at least one rule is kept and no kept rule contains `\|`: split on `\|`, the infix expression gives exactly the kept rules. |
| TokenizerRegex.ExpressionOfConcatenation | syfertext/tokenizers/utils.py:37-50 | For two rule lists that each keep a rule, the suffix and infix expressions of the lists end to end are the two expressions joined by `\|`. |

## Left out

- `syfertext/vocab.py`: not modelled. It does not parse, refers to undefined names, and only wraps vector and string-store classes that are not part of this model.
- The copies of `compile_prefix_regex`, `compile_suffix_regex` and `compile_infix_regex` in `syfertext/utils.py` (lines 74-120) have the same text as those in `syfertext/tokenizers/utils.py`. They are modelled once, from the latter.
- `re.compile`: not modelled. Only the expression string is. `re.escape` is a function parameter with no properties.
- MurmurHash3 (`mmh3.hash64`): a foreign library, taken as an arbitrary function parameter. Nothing is claimed about collisions.
- Hashing.MsgpackCodeDependsOnlyOnSeededFirstHalf: says nothing about the hash values themselves, because the hash is an arbitrary function here.
- Filesystem semantics: paths are exact strings. There is no normalisation of `//` or `..`, and `os.path.exists` holds for any entry, directory or file. Errors from `open` (permissions, races) are not modelled. `Path.home()` is a parameter.
- Worker RPC: each worker's answer is a given list. Transport failures and timeouts are not modelled: the code would propagate them as exceptions.
- `np.random.choice`: replaced by an injected draw of three distinct positions. The uniform distribution is not modelled.
- Running Python with assertions disabled (`-O`) is not modelled. That would turn both ambiguity failures into returning the first match. It would also remove the step check at syfertext/utils.py:43, so `normalize_slice` would silently ignore any step, where the model refuses it.
- Python's dynamic typing is not modelled (a `bool` step, non-integer bounds, non-string rules). Python strings are modelled as sequences of Unicode scalar values.

=== FILE: hashing.dfy ===
/**
  Token hashing and msgpack code generation. The MurmurHash3 x64 128-bit
  function is a foreign library, so it enters the model as a parameter:
  any function from a text and a seed to the two unsigned 64-bit halves
  of the digest.
 */
module Hashing {

  newtype u64 = x: int | 0 <= x < 0x1_0000_0000_0000_0000

  /** `mmh3.hash64(text, seed, signed=False)`: the two unsigned halves. */
  type Murmur3x64 = (string, nat) -> (u64, u64)

  /** The seed baked into every token hash; changing it would change every
      persisted hash. */
  const Seed: nat := 1

  /** `hash_string`: the first half of the seeded 64-bit-pair digest. */
  function HashString(mmh3: Murmur3x64, text: string): u64 {
    mmh3(text, Seed).0
  }

  /** `MsgpackCodeGenerator()(class_name)`: the code of a class is the token
      hash of its name. */
  function MsgpackCode(mmh3: Murmur3x64, className: string): u64 {
    HashString(mmh3, className)
  }

  /** A class's msgpack code depends only on the first digest half for the
      fixed seed: two hash implementations that agree there yield the same
      code, whatever they do for other seeds or in the second half. Class
      codes and token hashes share one key space. */
  lemma MsgpackCodeDependsOnlyOnSeededFirstHalf(h1: Murmur3x64, h2: Murmur3x64, className: string)
    requires h1(className, Seed).0 == h2(className, Seed).0
    ensures MsgpackCode(h1, className) == MsgpackCode(h2, className)
    ensures MsgpackCode(h1, className) == HashString(h1, className)
  {
  }
}

=== FILE: mpc.dfy ===
/**
  MPC participant selection (`create_mpc_config`): the known workers other
  than the one keyed `"me"` are candidates; two of them hold the shares and
  one provides the crypto primitives. Its random draw is an injected
  parameter constrained as NumPy's draw without replacement is.
 */
module Mpc {
  import opened Wrappers
  import Seqs

  type WorkerId = string

  /** The id the local worker is registered under; it is never selected. */
  const LocalId: WorkerId := "me"

  const Node0: string := "node_0"
  const Node1: string := "node_1"
  const Node2: string := "node_2"

  /** One entry of a worker's `_known_workers` dictionary. */
  datatype KnownWorker<W> = KnownWorker(id: WorkerId, worker: W)

  /** The keys of a dictionary are distinct. */
  predicate UniqueIds<W>(ws: seq<KnownWorker<W>>) {
    forall i, j :: 0 <= i < j < |ws| ==> ws[i].id != ws[j].id
  }

  /** The known workers except `"me"`, in dictionary order. */
  function Eligible<W(!new)>(ws: seq<KnownWorker<W>>): seq<KnownWorker<W>> {
    Seqs.Filter((k: KnownWorker<W>) => k.id != LocalId, ws)
  }

  /** Positions drawn from the eligible workers, in draw order. */
  datatype Draw = Draw(first: nat, second: nat, third: nat)

  /** What `np.random.choice(ids, size=3, replace=False)` guarantees: three
      distinct positions among `n` candidates. */
  predicate IsDrawWithoutReplacement(d: Draw, n: nat) {
    && d.first < n && d.second < n && d.third < n
    && d.first != d.second && d.first != d.third && d.second != d.third
  }

  /** `create_mpc_config(worker)`. One eligible worker gives `None`; none
      gives an empty configuration; two fill `node_0` and `node_1` in
      dictionary order and repeat `node_1` as `node_2`; three or more fill
      `node_0`, `node_1`, `node_2` from the draw. */
  function CreateMpcConfig<W(!new)>(ws: seq<KnownWorker<W>>, draw: Draw): (r: Option<map<string, W>>)
    requires UniqueIds(ws)
    requires |Eligible(ws)| >= 3 ==> IsDrawWithoutReplacement(draw, |Eligible(ws)|)
    ensures r.None? <==> |Eligible(ws)| == 1
    ensures |Eligible(ws)| == 0 ==> r == Some(map[])
    ensures |Eligible(ws)| >= 2 ==> r.Some? && r.value.Keys == {Node0, Node1, Node2}
  {
    var e := Eligible(ws);
    if |e| == 1 then None
    else if |e| == 0 then Some(map[])
    else if |e| == 2 then Some(map[Node0 := e[0].worker, Node1 := e[1].worker, Node2 := e[1].worker])
    else Some(map[Node0 := e[draw.first].worker, Node1 := e[draw.second].worker, Node2 := e[draw.third].worker])
  }

  /** Eligibility is exactly "known and not keyed `"me"`". */
  lemma EligibleMembers<W(!new)>(ws: seq<KnownWorker<W>>, k: KnownWorker<W>)
    ensures k in Eligible(ws) <==> k in ws && k.id != LocalId
  {
  }

  /** Every worker in a configuration is a known worker whose id is not
      `"me"`. */
  lemma MpcConfigNeverSelectsMe<W(!new)>(ws: seq<KnownWorker<W>>, draw: Draw)
    requires UniqueIds(ws)
    requires |Eligible(ws)| >= 3 ==> IsDrawWithoutReplacement(draw, |Eligible(ws)|)
    ensures var r := CreateMpcConfig(ws, draw);
      r.Some? ==> forall key :: key in r.value ==>
        exists k :: k in ws && k.id != LocalId && k.worker == r.value[key]
  {
    var e := Eligible(ws);
    var r := CreateMpcConfig(ws, draw);
    if |e| >= 2 {
      forall key | key in r.value
        ensures exists k :: k in ws && k.id != LocalId && k.worker == r.value[key]
      {
        var i := if |e| == 2 then (if key == Node0 then 0 else 1)
                 else (if key == Node0 then draw.first else if key == Node1 then draw.second else draw.third);
        assert e[i] in e;
        assert e[i].worker == r.value[key];
      }
    }
  }

  /** Two eligible workers: they sit at positions `i < j` of the
      dictionary, every other entry is `"me"`, and they hold the shares in
      that order, the second of them also being the crypto provider under
      `node_2`. */
  lemma MpcConfigTwoWorkers<W(!new)>(ws: seq<KnownWorker<W>>, draw: Draw)
    requires UniqueIds(ws)
    requires |Eligible(ws)| == 2
    ensures exists i, j ::
      && 0 <= i < j < |ws|
      && ws[i].id != LocalId && ws[j].id != LocalId && ws[i].id != ws[j].id
      && (forall k :: 0 <= k < |ws| && k != i && k != j ==> ws[k].id == LocalId)
      && CreateMpcConfig(ws, draw) == Some(map[Node0 := ws[i].worker, Node1 := ws[j].worker, Node2 := ws[j].worker])
  {
    var e := Eligible(ws);
    var config := Some(map[Node0 := e[0].worker, Node1 := e[1].worker, Node2 := e[1].worker]);
    assert CreateMpcConfig(ws, draw) == config;
    var keep := (k: KnownWorker<W>) => k.id != LocalId;
    assert e == Seqs.Filter(keep, ws);
    Seqs.FilterTwo(keep, ws);
    var i, j :| && 0 <= i < j < |ws|
      && ws[i] == e[0] && ws[j] == e[1]
      && keep(ws[i]) && keep(ws[j])
      && Seqs.OnlyKeptAt(keep, ws, i, j);
    assert forall k :: 0 <= k < |ws| && k != i && k != j ==> ws[k].id == LocalId by {
      forall k | 0 <= k < |ws| && k != i && k != j ensures ws[k].id == LocalId {
        assert !keep(ws[k]);
      }
    }
    DistinctPositionsDistinctIds(ws, i, j);
  }

  /** Three or more eligible workers: the configuration maps `node_0`,
      `node_1`, `node_2` to workers of three pairwise distinct ids, none of
      them `"me"`, whatever the draw. */
  lemma MpcConfigThreeDistinct<W(!new)>(ws: seq<KnownWorker<W>>, draw: Draw)
    requires UniqueIds(ws)
    requires |Eligible(ws)| >= 3 && IsDrawWithoutReplacement(draw, |Eligible(ws)|)
    ensures exists a, b, c ::
      && a in ws && b in ws && c in ws
      && a.id != LocalId && b.id != LocalId && c.id != LocalId
      && a.id != b.id && a.id != c.id && b.id != c.id
      && CreateMpcConfig(ws, draw) == Some(map[Node0 := a.worker, Node1 := b.worker, Node2 := c.worker])
  {
    var e := Eligible(ws);
    var keep := (k: KnownWorker<W>) => k.id != LocalId;
    var differ := (x: KnownWorker<W>, y: KnownWorker<W>) => x.id != y.id;
    Seqs.FilterKeepsPairwise(keep, differ, ws);
    assert UniqueIds(e) by {
      forall i, j | 0 <= i < j < |e| ensures e[i].id != e[j].id {
        assert differ(e[i], e[j]);
      }
    }
    var a, b, c := e[draw.first], e[draw.second], e[draw.third];
    assert a in e && b in e && c in e;
    assert a.id != b.id && a.id != c.id && b.id != c.id by {
      DistinctPositionsDistinctIds(e, draw.first, draw.second);
      DistinctPositionsDistinctIds(e, draw.first, draw.third);
      DistinctPositionsDistinctIds(e, draw.second, draw.third);
    }
  }

  /** In a dictionary, entries at different positions have different ids. */
  lemma DistinctPositionsDistinctIds<W>(ws: seq<KnownWorker<W>>, i: nat, j: nat)
    requires UniqueIds(ws)
    requires i < |ws| && j < |ws| && i != j
    ensures ws[i].id != ws[j].id
  {
    if j < i {
      assert ws[j].id != ws[i].id;
    }
  }

  /** Only the local worker, or one other worker, gives no usable
      configuration: an empty one and `None` respectively. */
  lemma MpcConfigTooFewWorkers<W(!new)>(me: W, other: W, draw: Draw)
    ensures CreateMpcConfig([KnownWorker(LocalId, me)], draw) == Some(map[])
    ensures CreateMpcConfig([KnownWorker(LocalId, me), KnownWorker("alice", other)], draw) == None
  {
    var one := [KnownWorker(LocalId, me)];
    assert one[1..] == [];
    var two := [KnownWorker(LocalId, me), KnownWorker("alice", other)];
    var keep := (k: KnownWorker<W>) => k.id != LocalId;
    assert "alice" != LocalId by { assert "alice"[0] != LocalId[0]; }
    assert two[1..] == [KnownWorker("alice", other)];
    Seqs.FilterSingleton(keep, KnownWorker("alice", other));
    assert Eligible(two) == [KnownWorker("alice", other)];
  }
}

=== FILE: pystr.dfy ===
/**
  The Python `str` operations the utilities rely on, over `string` as a
  sequence of Unicode scalar values: `strip()` with no argument,
  `sep.join(parts)`, `s.split(c)` for a one-character separator, and
  `s.replace(a, b)` for one-character `a` and `b`.
 */
module PyStr {

  /** Python's notion of whitespace (`str.isspace`, also what `strip()`
      removes): the ASCII and Unicode separators and line breaks. */
  predicate IsSpace(c: char) {
    var n := c as int;
    || (0x09 <= n <= 0x0D)
    || (0x1C <= n <= 0x20)
    || n == 0x85
    || n == 0xA0
    || n == 0x1680
    || (0x2000 <= n <= 0x200A)
    || n == 0x2028
    || n == 0x2029
    || n == 0x202F
    || n == 0x205F
    || n == 0x3000
  }

  /** Every character is whitespace (the empty string included). */
  predicate IsBlank(s: string) {
    forall i :: 0 <= i < |s| ==> IsSpace(s[i])
  }

  /** `s` with its leading whitespace removed: what is left does not start
      with whitespace (what is cut off is all whitespace, by
      `StripLeadingCutsBlank`). */
  function StripLeading(s: string): (r: string)
    ensures r == "" <==> IsBlank(s)
    ensures |r| > 0 ==> !IsSpace(r[0])
    ensures |r| <= |s| && r == s[|s| - |r|..]
    decreases |s|
  {
    if |s| > 0 && IsSpace(s[0]) then
      var r := StripLeading(s[1..]);
      assert IsBlank(s[1..]) ==> IsBlank(s) by {
        if IsBlank(s[1..]) {
          forall i | 0 <= i < |s| ensures IsSpace(s[i]) {
            if i > 0 { assert s[i] == s[1..][i - 1]; }
          }
        }
      }
      r
    else
      s
  }

  /** Everything `StripLeading` cuts off is whitespace. */
  lemma {:induction false} StripLeadingCutsBlank(s: string)
    ensures IsBlank(s[..|s| - |StripLeading(s)|])
    decreases |s|
  {
    if |s| > 0 && IsSpace(s[0]) {
      var r := StripLeading(s[1..]);
      StripLeadingCutsBlank(s[1..]);
      var cut := s[1..][..|s| - 1 - |r|];
      forall i | 0 < i < |s| - |r| ensures IsSpace(s[i]) {
        assert s[i] == cut[i - 1];
      }
    }
  }

  /** `s` with its trailing whitespace removed: what is left does not end
      with whitespace (what is cut off is all whitespace, by
      `StripTrailingCutsBlank`). */
  function StripTrailing(s: string): (r: string)
    ensures r == "" <==> IsBlank(s)
    ensures |r| > 0 ==> !IsSpace(r[|r| - 1])
    ensures r <= s
    decreases |s|
  {
    if |s| > 0 && IsSpace(s[|s| - 1]) then
      var front := s[..|s| - 1];
      var r := StripTrailing(front);
      assert IsBlank(front) ==> IsBlank(s) by {
        if IsBlank(front) {
          forall i | 0 <= i < |s| ensures IsSpace(s[i]) {
            if i < |s| - 1 { assert s[i] == front[i]; }
          }
        }
      }
      r
    else
      s
  }

  /** Everything `StripTrailing` cuts off is whitespace. */
  lemma {:induction false} StripTrailingCutsBlank(s: string)
    ensures IsBlank(s[|StripTrailing(s)|..])
    decreases |s|
  {
    if |s| > 0 && IsSpace(s[|s| - 1]) {
      var front := s[..|s| - 1];
      var r := StripTrailing(front);
      StripTrailingCutsBlank(front);
      var rest := front[|r|..];
      forall i | |r| <= i < |s| - 1 ensures IsSpace(s[i]) {
        assert s[i] == rest[i - |r|];
      }
    }
  }

  /** Python's `s.strip()`: leading and trailing whitespace removed. */
  function Strip(s: string): string {
    StripTrailing(StripLeading(s))
  }

  /** `s.strip()` is falsy exactly when `s` consists of whitespace only. */
  lemma StripEmptyIffBlank(s: string)
    ensures Strip(s) == "" <==> IsBlank(s)
  {
    var t := StripLeading(s);
    assert IsBlank(t) <==> t == "";
  }

  /** Python's `sep.join(parts)`. */
  function Join(sep: string, parts: seq<string>): (r: string)
    ensures |parts| > 0 ==> parts[0] <= r
    decreases |parts|
  {
    if |parts| == 0 then ""
    else if |parts| == 1 then parts[0]
    else parts[0] + sep + Join(sep, parts[1..])
  }

  /** Python's `s.split(sep)` for a one-character separator: the maximal
      separator-free runs of `s`, always at least one (possibly empty). */
  function Split(s: string, sep: char): (parts: seq<string>)
    ensures |parts| >= 1
    ensures forall p :: p in parts ==> sep !in p
    decreases |s|
  {
    if |s| == 0 then [""]
    else if s[0] == sep then [""] + Split(s[1..], sep)
    else
      var rest := Split(s[1..], sep);
      assert rest[0] in rest;
      var first := [s[0]] + rest[0];
      assert forall p :: p in rest[1..] ==> p in rest;
      [first] + rest[1..]
  }

  /** Python's `s.replace(a, b)` for one-character `a` and `b`. */
  function ReplaceChar(s: string, a: char, b: char): (r: string)
    ensures |r| == |s|
    ensures forall i :: 0 <= i < |s| ==> r[i] == (if s[i] == a then b else s[i])
  {
    seq(|s|, i requires 0 <= i < |s| => if s[i] == a then b else s[i])
  }

  /** After replacing `a` by a different character, no `a` is left. */
  lemma ReplaceCharRemoves(s: string, a: char, b: char)
    requires a != b
    ensures a !in ReplaceChar(s, a, b)
  {
    var r := ReplaceChar(s, a, b);
    forall i | 0 <= i < |r| ensures r[i] != a { }
  }

  /** Joining one more leading part onto a non-empty list puts a separator
      between them. */
  lemma JoinCons(sep: string, x: string, rest: seq<string>)
    ensures Join(sep, [x] + rest) == if rest == [] then x else x + sep + Join(sep, rest)
  {
    assert ([x] + rest)[1..] == rest;
  }

  /** A character put in front of the first part ends up in front of the
      join. */
  lemma JoinExtendsHead(sep: string, c: char, x: string, rest: seq<string>)
    ensures Join(sep, [[c] + x] + rest) == [c] + Join(sep, [x] + rest)
  {
    JoinCons(sep, [c] + x, rest);
    JoinCons(sep, x, rest);
  }

  /** Joining two non-empty lists is joining their joins. */
  lemma {:induction false} JoinAppend(sep: string, a: seq<string>, b: seq<string>)
    requires a != [] && b != []
    ensures Join(sep, a + b) == Join(sep, a) + sep + Join(sep, b)
    decreases |a|
  {
    if |a| == 1 {
      assert a + b == [a[0]] + b;
      JoinCons(sep, a[0], b);
    } else {
      var tail := a[1..];
      assert a + b == [a[0]] + (tail + b);
      assert a == [a[0]] + tail;
      calc {
        Join(sep, a + b);
        { JoinCons(sep, a[0], tail + b); }
        a[0] + sep + Join(sep, tail + b);
        { JoinAppend(sep, tail, b); }
        a[0] + sep + (Join(sep, tail) + sep + Join(sep, b));
        (a[0] + sep + Join(sep, tail)) + sep + Join(sep, b);
        { JoinCons(sep, a[0], tail); }
        Join(sep, a) + sep + Join(sep, b);
      }
    }
  }

  /** A separator-free string splits into itself alone. */
  lemma {:induction false} SplitWithoutSeparator(s: string, sep: char)
    requires sep !in s
    ensures Split(s, sep) == [s]
    decreases |s|
  {
    if |s| > 0 {
      assert sep !in s[1..] by {
        forall i | 0 <= i < |s[1..]| ensures s[1..][i] != sep {
          assert s[1..][i] == s[i + 1];
        }
      }
      SplitWithoutSeparator(s[1..], sep);
      assert [s[0]] + s[1..] == s;
    }
  }

  /** Splitting a separator-free head followed by a separator yields the head
      and then the parts of the remainder. */
  lemma {:induction false} SplitAfterHead(p: string, sep: char, t: string)
    requires sep !in p
    ensures Split(p + [sep] + t, sep) == [p] + Split(t, sep)
    decreases |p|
  {
    var s := p + [sep] + t;
    if |p| == 0 {
      assert s[0] == sep && s[1..] == t;
    } else {
      assert s[0] == p[0];
      assert s[1..] == p[1..] + [sep] + t;
      assert sep !in p[1..] by {
        forall i | 0 <= i < |p[1..]| ensures p[1..][i] != sep {
          assert p[1..][i] == p[i + 1];
        }
      }
      SplitAfterHead(p[1..], sep, t);
      assert [p[0]] + p[1..] == p;
    }
  }

  /** Round trip: splitting the join of separator-free parts gives the parts
      back. */
  lemma {:induction false} SplitJoin(parts: seq<string>, sep: char)
    requires |parts| >= 1
    requires forall p :: p in parts ==> sep !in p
    ensures Split(Join([sep], parts), sep) == parts
    decreases |parts|
  {
    assert parts[0] in parts;
    if |parts| == 1 {
      SplitWithoutSeparator(parts[0], sep);
    } else {
      var rest := parts[1..];
      assert parts == [parts[0]] + rest;
      forall p | p in rest ensures sep !in p {
        assert p in parts;
      }
      SplitJoin(rest, sep);
      JoinCons([sep], parts[0], rest);
      SplitAfterHead(parts[0], sep, Join([sep], rest));
    }
  }

  /** Round trip: joining the parts of a split with the separator rebuilds
      the string. */
  lemma {:induction false} JoinSplit(s: string, sep: char)
    ensures Join([sep], Split(s, sep)) == s
    decreases |s|
  {
    if |s| > 0 {
      var rest := Split(s[1..], sep);
      JoinSplit(s[1..], sep);
      assert s == [s[0]] + s[1..];
      if s[0] == sep {
        JoinCons([sep], "", rest);
      } else {
        assert Split(s, sep) == [[s[0]] + rest[0]] + rest[1..];
        assert rest == [rest[0]] + rest[1..];
        JoinExtendsHead([sep], s[0], rest[0], rest[1..]);
      }
    }
  }

  /** Replacing in a non-empty string is replacing its head and its tail. */
  lemma ReplaceCharCons(s: string, a: char, b: char)
    requires |s| > 0
    ensures ReplaceChar(s, a, b) == [if s[0] == a then b else s[0]] + ReplaceChar(s[1..], a, b)
  {
  }

  /** One step of the replace/split correspondence: if it holds for the
      tail of `s`, it holds for `s`. */
  lemma ReplaceSplitStep(s: string, a: char, b: char)
    requires |s| > 0
    requires ReplaceChar(s[1..], a, b) == Join([b], Split(s[1..], a))
    ensures ReplaceChar(s, a, b) == Join([b], Split(s, a))
  {
    var rest := Split(s[1..], a);
    ReplaceCharCons(s, a, b);
    if s[0] == a {
      assert Split(s, a) == [""] + rest;
      JoinCons([b], "", rest);
    } else {
      assert Split(s, a) == [[s[0]] + rest[0]] + rest[1..];
      assert rest == [rest[0]] + rest[1..];
      JoinExtendsHead([b], s[0], rest[0], rest[1..]);
    }
  }

  /** `s.replace(a, b) == b.join(s.split(a))`: the character replacement
      is the same as splitting on `a` and re-joining with `b`. */
  lemma {:induction false} ReplaceIsJoinOfSplit(s: string, a: char, b: char)
    ensures ReplaceChar(s, a, b) == Join([b], Split(s, a))
    decreases |s|
  {
    if |s| > 0 {
      ReplaceIsJoinOfSplit(s[1..], a, b);
      ReplaceSplitStep(s, a, b);
    }
  }
}

=== FILE: queries.dfy ===
/**
  State-query naming and the cache-path strings derived from a query. A
  state query is `"<pipeline>:<state>"`; its cached copy lives in
  `<home>/SyferText/cache/<pipeline>/` under a file name in which every `:`
  became `-`.
 */
module Queries {
  import PyStr

  /** The character separating the pipeline segment from the state name. */
  const Separator: char := ':'

  /** What `:` is replaced by in cache file names. */
  const FileSeparator: char := '-'

  /** `create_state_query(pipeline_name, state_name)`. */
  function CreateStateQuery(pipelineName: string, stateName: string): (q: string)
    ensures |q| == |pipelineName| + 1 + |stateName|
    ensures q[..|pipelineName|] == pipelineName
    ensures q[|pipelineName|] == Separator
    ensures q[|pipelineName| + 1..] == stateName
  {
    pipelineName + [Separator] + stateName
  }

  /** Round trip: when neither name contains `:`, splitting the query on
      `:` gives back exactly the two names. */
  lemma QueryRoundTrip(pipelineName: string, stateName: string)
    requires Separator !in pipelineName && Separator !in stateName
    ensures PyStr.Split(CreateStateQuery(pipelineName, stateName), Separator) == [pipelineName, stateName]
  {
    PyStr.JoinCons([Separator], pipelineName, [stateName]);
    PyStr.SplitJoin([pipelineName, stateName], Separator);
  }

  /** Separator-free names are recovered from their query, so distinct
      name pairs never share a query. */
  lemma QueryInjective(p1: string, s1: string, p2: string, s2: string)
    requires Separator !in p1 && Separator !in s1
    requires Separator !in p2 && Separator !in s2
    requires CreateStateQuery(p1, s1) == CreateStateQuery(p2, s2)
    ensures p1 == p2 && s1 == s2
  {
    QueryRoundTrip(p1, s1);
    QueryRoundTrip(p2, s2);
  }

  /** `create_state_query` does not reject a `:` inside a name; then two
      different name pairs produce the same query. */
  lemma QueryAmbiguousWithSeparatorInName()
    ensures CreateStateQuery("a:b", "c") == CreateStateQuery("a", "b:c")
  {
  }

  /** `os.path.join(a, b)` on POSIX: an absolute `b` replaces `a`; otherwise
      a `/` is inserted unless `a` is empty or already ends in `/`. */
  function PathJoin(a: string, b: string): string {
    if |b| > 0 && b[0] == '/' then b
    else if |a| == 0 || a[|a| - 1] == '/' then a + b
    else a + "/" + b
  }

  /** The joined path always ends with `b`. A relative `b` is appended to
      `a` with at most one `/` in between, and the `/` is inserted exactly
      when `a` is non-empty and does not already end in one; an absolute `b`
      is all that is left. */
  lemma PathJoinShape(a: string, b: string)
    ensures var r := PathJoin(a, b);
      && |b| <= |r| && r[|r| - |b|..] == b
      && ((|b| == 0 || b[0] != '/') ==> a <= r && |r| <= |a| + 1 + |b|)
      && ((|b| == 0 || b[0] != '/') && |a| > 0 && a[|a| - 1] != '/' ==> r == a + "/" + b)
      && ((|b| == 0 || b[0] != '/') && (|a| == 0 || a[|a| - 1] == '/') ==> r == a + b)
      && (|b| > 0 && b[0] == '/' ==> r == b)
  {
  }

  /** `tokens[0]`: the whole run of the query before its first `:` (the
      whole query when it has none), naming the pipeline directory. */
  function PipelineSegment(query: string): (segment: string)
    ensures Separator !in segment
    ensures segment <= query
    ensures segment == query || (|segment| < |query| && query[|segment|] == Separator)
  {
    var parts := PyStr.Split(query, Separator);
    assert parts[0] in parts;
    PyStr.JoinSplit(query, Separator);
    assert parts[0] <= query;
    assert |parts| > 1 ==> |parts[0]| < |query| && query[|parts[0]|] == Separator by {
      if |parts| > 1 {
        assert parts == [parts[0]] + parts[1..];
        PyStr.JoinCons([Separator], parts[0], parts[1..]);
      }
    }
    assert |parts| == 1 ==> parts[0] == query by {
      if |parts| == 1 {
        assert parts == [parts[0]];
      }
    }
    parts[0]
  }

  /** With a `:` inside the pipeline name, the cache directory is named
      after the part before that `:` only. */
  lemma SeparatorInNameShortensSegment()
    ensures PipelineSegment(CreateStateQuery("a:b", "c")) == "a"
  {
  }

  /** `os.path.join(home, "SyferText", "cache")`, the root of all caches. */
  function CacheRoot(home: string): string {
    PathJoin(PathJoin(home, "SyferText"), "cache")
  }

  /** `os.path.join(home, "SyferText", "cache", tokens[0])`. */
  function CacheDirectory(home: string, query: string): string {
    PathJoin(CacheRoot(home), PipelineSegment(query))
  }

  /** The target `"/" + query.replace(":", "-") + ".pkl"`. */
  function CacheFileName(query: string): (name: string)
    ensures Separator !in name
  {
    PyStr.ReplaceCharRemoves(query, Separator, FileSeparator);
    "/" + PyStr.ReplaceChar(query, Separator, FileSeparator) + ".pkl"
  }

  /** The full file path, the directory and the target glued together. */
  function CachePath(home: string, query: string): string {
    CacheDirectory(home, query) + CacheFileName(query)
  }

  /** Under a home directory with no trailing `/`, the cache root is
      `<home>/SyferText/cache`. */
  lemma CacheRootOfHome(home: string)
    requires |home| > 0 && home[|home| - 1] != '/'
    ensures CacheRoot(home) == home + "/SyferText/cache"
  {
    var root := home + "/SyferText";
    assert PathJoin(home, "SyferText") == root;
    assert root[|root| - 1] == 't';
  }

  /** The cache directory of a state query is the pipeline's directory
      under `<home>/SyferText/cache`. */
  lemma CacheDirectoryOfStateQuery(home: string, pipelineName: string, stateName: string)
    requires |home| > 0 && home[|home| - 1] != '/'
    requires |pipelineName| == 0 || pipelineName[0] != '/'
    requires Separator !in pipelineName && Separator !in stateName
    ensures CacheDirectory(home, CreateStateQuery(pipelineName, stateName))
         == home + "/SyferText/cache/" + pipelineName
  {
    var q := CreateStateQuery(pipelineName, stateName);
    assert PipelineSegment(q) == pipelineName by {
      QueryRoundTrip(pipelineName, stateName);
    }
    var cache := home + "/SyferText/cache";
    CacheRootOfHome(home);
    assert cache[|cache| - 1] == 'e';
    assert PathJoin(cache, pipelineName) == cache + "/" + pipelineName;
    assert cache + "/" == home + "/SyferText/cache/" by {
      assert "/SyferText/cache" + "/" == "/SyferText/cache/";
    }
  }

  /** The cache file name of a state query is `/<pipeline>-<state>.pkl`. */
  lemma CacheFileNameOfStateQuery(pipelineName: string, stateName: string)
    requires Separator !in pipelineName && Separator !in stateName
    ensures CacheFileName(CreateStateQuery(pipelineName, stateName))
         == "/" + pipelineName + "-" + stateName + ".pkl"
  {
    var q := CreateStateQuery(pipelineName, stateName);
    QueryRoundTrip(pipelineName, stateName);
    CacheFileNameOfQuery(q);
    PyStr.JoinCons([FileSeparator], pipelineName, [stateName]);
  }

  /** The cached copy of the state `s` of pipeline `p` lives at
      `<home>/SyferText/cache/<p>` + `/<p>-<s>.pkl`, for a home directory
      with no trailing `/` and a pipeline name that is not an absolute
      path. */
  lemma CachePathOfStateQuery(home: string, pipelineName: string, stateName: string)
    requires |home| > 0 && home[|home| - 1] != '/'
    requires |pipelineName| == 0 || pipelineName[0] != '/'
    requires Separator !in pipelineName && Separator !in stateName
    ensures CachePath(home, CreateStateQuery(pipelineName, stateName))
         == (home + "/SyferText/cache/" + pipelineName) + ("/" + pipelineName + "-" + stateName + ".pkl")
  {
    var q := CreateStateQuery(pipelineName, stateName);
    assert CacheDirectory(home, q) == home + "/SyferText/cache/" + pipelineName by {
      CacheDirectoryOfStateQuery(home, pipelineName, stateName);
    }
    assert CacheFileName(q) == "/" + pipelineName + "-" + stateName + ".pkl" by {
      CacheFileNameOfStateQuery(pipelineName, stateName);
    }
  }

  /** The body of the cache file name is the query's `:`-separated
      segments joined with `-`. */
  lemma CacheFileNameOfQuery(query: string)
    ensures CacheFileName(query) == "/" + PyStr.Join([FileSeparator], PyStr.Split(query, Separator)) + ".pkl"
  {
    PyStr.ReplaceIsJoinOfSplit(query, Separator, FileSeparator);
  }

  /** An absolute pipeline segment replaces the cache root altogether, as
      `os.path.join` discards everything before an absolute component. */
  lemma AbsoluteSegmentEscapesCacheRoot(home: string, query: string)
    requires var segment := PipelineSegment(query); |segment| > 0 && segment[0] == '/'
    ensures CacheDirectory(home, query) == PipelineSegment(query)
  {
  }

  /** For instance, the query `"/tmp:x"` is cached under `/tmp`, whatever
      the home directory. */
  lemma AbsoluteSegmentExample(home: string)
    ensures CacheDirectory(home, "/tmp:x") == "/tmp"
  {
  }
}

=== FILE: resolver.dfy ===
/**
  Tiered resource search (`search_resource`): the local worker first, then
  the on-disk cache, then every known worker in turn. The filesystem, the
  unpickler and the workers' search answers are not executed; they are the
  `World` the search is evaluated in.
 */
module Resolver {
  import opened Wrappers
  import Queries

  /** What a path names on disk. A regular file carries its size and what
      unpickling it gives: `None` when the unpickler raises. */
  datatype FsNode<T> = Directory | RegularFile(size: nat, content: Option<T>)

  /** The filesystem as a map from path strings to what is there. */
  type FileSystem<T> = map<string, FsNode<T>>

  /** A known worker: its location and what `request_search(query, location)`
      answers for the query searched. */
  datatype Peer<L, T> = Peer(location: L, matches: seq<T>)

  /** Everything `search_resource(query, local_worker)` observes: the local
      worker's answer to `search(query)`, the home directory, the
      filesystem, and the known workers in iteration order. */
  datatype World<L, T> = World(localMatches: seq<T>, home: string, fs: FileSystem<T>, peers: seq<Peer<L, T>>)

  /** The worker a failed single-match assertion was about. */
  datatype Where<L> = LocalWorker | RemoteWorker(location: L)

  /** How the search ends: the object (or pointer) found; `None` returned;
      the ambiguity assertion failing; or unpickling a cache file raising. */
  datatype Outcome<L, T> = Found(obj: T) | NotFound | Ambiguous(at: Where<L>) | CorruptCache(path: string)

  /** The outcome together with what was consulted to reach it: whether the
      cache was looked at and how many `request_search` calls were made. */
  datatype Run<L, T> = Run(outcome: Outcome<L, T>, cacheChecked: bool, requests: nat)

  /** The result of the network phase alone. */
  datatype Fanout<L, T> = Fanout(outcome: Outcome<L, T>, requests: nat)

  /** What reading the cache gives. */
  datatype CacheRead<T> = Miss | Hit(obj: T) | Undecodable(path: string)

  /** Every worker answered with an empty list. */
  predicate NoneMatch<L(==), T(==)>(peers: seq<Peer<L, T>>) {
    forall j :: 0 <= j < |peers| ==> peers[j].matches == []
  }

  /** `o` is the result of processing the non-empty answer of `p`. */
  predicate AnsweredBy<L(==), T(==)>(o: Outcome<L, T>, p: Peer<L, T>) {
    match o
    case Found(x) => p.matches == [x]
    case Ambiguous(w) => |p.matches| > 1 && w == RemoteWorker(p.location)
    case _ => false
  }

  /** The cache file exists with a positive size, inside an existing
      pipeline directory. */
  predicate CacheFilePresent<T(==)>(home: string, query: string, fs: FileSystem<T>) {
    var path := Queries.CachePath(home, query);
    && Queries.CacheDirectory(home, query) in fs
    && path in fs
    && fs[path].RegularFile?
    && fs[path].size > 0
  }

  /** The cache phase: a hit only when the directory exists and the file is
      a regular file of positive size; then it is unpickled. */
  function ReadCache<T(==)>(home: string, query: string, fs: FileSystem<T>): (c: CacheRead<T>)
    ensures c.Miss? <==> !CacheFilePresent(home, query, fs)
    ensures c.Hit? ==> fs[Queries.CachePath(home, query)].content == Some(c.obj)
    ensures c.Undecodable? ==> c.path == Queries.CachePath(home, query) && fs[c.path].content == None
  {
    var path := Queries.CachePath(home, query);
    if CacheFilePresent(home, query, fs) then
      match fs[path].content
      case Some(obj) => Hit(obj)
      case None => Undecodable(path)
    else
      Miss
  }

  /** The network phase: workers are asked in order; the first non-empty
      answer ends the loop, its single element is returned and an answer
      with several elements fails the assertion; no match at all returns
      `None` after asking every worker. */
  function NetworkSearch<L(==), T(==)>(peers: seq<Peer<L, T>>): (f: Fanout<L, T>)
    ensures f.outcome.NotFound? <==> NoneMatch(peers)
    ensures f.outcome.NotFound? ==> f.requests == |peers|
    ensures !f.outcome.NotFound? ==>
      && 0 < f.requests <= |peers|
      && NoneMatch(peers[..f.requests - 1])
      && AnsweredBy(f.outcome, peers[f.requests - 1])
    decreases |peers|
  {
    if |peers| == 0 then
      Fanout(NotFound, 0)
    else if |peers[0].matches| == 0 then
      var rest := NetworkSearch(peers[1..]);
      assert NoneMatch(peers[1..]) ==> NoneMatch(peers) by {
        if NoneMatch(peers[1..]) {
          forall j | 0 <= j < |peers| ensures peers[j].matches == [] {
            if j > 0 { assert peers[j] == peers[1..][j - 1]; }
          }
        }
      }
      assert NoneMatch(peers) ==> NoneMatch(peers[1..]) by {
        if NoneMatch(peers) {
          forall j | 0 <= j < |peers[1..]| ensures peers[1..][j].matches == [] {
            assert peers[1..][j] == peers[j + 1];
          }
        }
      }
      var f := Fanout(rest.outcome, rest.requests + 1);
      if !f.outcome.NotFound? then
        assert peers[f.requests - 1] == peers[1..][rest.requests - 1];
        assert NoneMatch(peers[..f.requests - 1]) by {
          var before := peers[..f.requests - 1];
          forall j | 0 <= j < |before| ensures before[j].matches == [] {
            if j > 0 {
              assert before[j] == peers[1..][..rest.requests - 1][j - 1];
            }
          }
        }
        f
      else
        f
    else if |peers[0].matches| == 1 then
      Fanout(Found(peers[0].matches[0]), 1)
    else
      Fanout(Ambiguous(RemoteWorker(peers[0].location)), 1)
  }

  /** `search_resource(query, local_worker)`. */
  function SearchResource<L(==), T(==)>(query: string, w: World<L, T>): (run: Run<L, T>)
    ensures run.requests <= |w.peers|
    ensures |w.localMatches| > 0 ==> !run.cacheChecked && run.requests == 0
    ensures run.requests > 0 ==> w.localMatches == [] && !CacheFilePresent(w.home, query, w.fs)
  {
    if |w.localMatches| > 0 then
      if |w.localMatches| == 1 then Run(Found(w.localMatches[0]), false, 0)
      else Run(Ambiguous(LocalWorker), false, 0)
    else
      match ReadCache(w.home, query, w.fs)
      case Hit(obj) => Run(Found(obj), true, 0)
      case Undecodable(path) => Run(CorruptCache(path), true, 0)
      case Miss =>
        var f := NetworkSearch(w.peers);
        Run(f.outcome, true, f.requests)
  }

  /** A non-empty local answer decides the search on its own: the cache and
      the workers are never consulted, so changing them changes nothing; a
      single match is returned and several fail the ambiguity assertion. */
  lemma LocalAnswerShortCircuits<L, T>(query: string, w: World<L, T>, w': World<L, T>)
    requires w.localMatches != [] && w'.localMatches == w.localMatches
    ensures SearchResource(query, w) == SearchResource(query, w')
    ensures var run := SearchResource(query, w);
      && !run.cacheChecked && run.requests == 0
      && (|w.localMatches| == 1 ==> run.outcome == Found(w.localMatches[0]))
      && (|w.localMatches| > 1 ==> run.outcome == Ambiguous(LocalWorker))
  {
  }

  /** With no local match, a present and decodable cache file is returned
      and no worker is asked, whatever the workers would answer. */
  lemma CacheHitSkipsNetwork<L, T>(query: string, w: World<L, T>, peers': seq<Peer<L, T>>)
    requires w.localMatches == []
    requires CacheFilePresent(w.home, query, w.fs)
    requires w.fs[Queries.CachePath(w.home, query)].content.Some?
    ensures var run := SearchResource(query, w);
      && run == SearchResource(query, w.(peers := peers'))
      && run.outcome == Found(w.fs[Queries.CachePath(w.home, query)].content.value)
      && run.requests == 0
  {
  }

  /** With no local match, a present cache file that does not unpickle
      ends the search with that error: it is not a miss, and no worker is
      asked. */
  lemma CorruptCacheStopsSearch<L, T>(query: string, w: World<L, T>)
    requires w.localMatches == []
    requires CacheFilePresent(w.home, query, w.fs)
    requires w.fs[Queries.CachePath(w.home, query)].content.None?
    ensures SearchResource(query, w) == Run(CorruptCache(Queries.CachePath(w.home, query)), true, 0)
  {
  }

  /** A missing directory, a missing or non-regular file, or an empty file
      is a cache miss, not an error: the search falls through to the
      workers. */
  lemma CacheMissFallsThrough<L, T>(query: string, w: World<L, T>)
    requires w.localMatches == []
    requires var path := Queries.CachePath(w.home, query);
      || Queries.CacheDirectory(w.home, query) !in w.fs
      || path !in w.fs
      || w.fs[path].Directory?
      || w.fs[path].size == 0
    ensures var run := SearchResource(query, w);
      && run.cacheChecked
      && run.outcome == NetworkSearch(w.peers).outcome
      && run.requests == NetworkSearch(w.peers).requests
  {
  }

  /** First hit wins: after workers that all answered empty, the first
      worker answering with exactly one object gives that object, and no
      later worker is asked. */
  lemma FirstRemoteHitWins<L, T>(query: string, w: World<L, T>, k: nat, obj: T)
    requires w.localMatches == [] && !CacheFilePresent(w.home, query, w.fs)
    requires k < |w.peers| && NoneMatch(w.peers[..k]) && w.peers[k].matches == [obj]
    ensures SearchResource(query, w) == Run(Found(obj), true, k + 1)
  {
    var f := NetworkSearch(w.peers);
    assert w.peers[k].matches != [];
    assert !f.outcome.NotFound?;
  }

  /** `None` is returned exactly when no tier has anything: no local match,
      no present cache file, and every worker answering empty, in which case
      every worker was asked. */
  lemma NotFoundIffNothingAnywhere<L, T>(query: string, w: World<L, T>)
    ensures SearchResource(query, w).outcome.NotFound? <==>
      && w.localMatches == []
      && !CacheFilePresent(w.home, query, w.fs)
      && NoneMatch(w.peers)
    ensures SearchResource(query, w).outcome.NotFound? ==> SearchResource(query, w).requests == |w.peers|
  {
  }

  /** Whatever is returned came from a tier that held exactly it: the only
      local match, the unpickled cache file, or the only match of some
      worker. */
  lemma FoundComesFromATier<L, T>(query: string, w: World<L, T>)
    requires SearchResource(query, w).outcome.Found?
    ensures var obj := SearchResource(query, w).outcome.obj;
      || w.localMatches == [obj]
      || (w.localMatches == [] && CacheFilePresent(w.home, query, w.fs)
          && w.fs[Queries.CachePath(w.home, query)].content == Some(obj))
      || (exists j :: 0 <= j < |w.peers| && w.peers[j].matches == [obj])
  {
    var run := SearchResource(query, w);
    if w.localMatches == [] && !CacheFilePresent(w.home, query, w.fs) {
      var f := NetworkSearch(w.peers);
      assert w.peers[f.requests - 1].matches == [run.outcome.obj];
    }
  }

  /** Two objects under the same query at one worker fail the assertion
      for that worker, even when a later worker has a single match. */
  lemma RemoteAmbiguityIsFatal<L, T>(query: string, w: World<L, T>, k: nat)
    requires w.localMatches == [] && !CacheFilePresent(w.home, query, w.fs)
    requires k < |w.peers| && NoneMatch(w.peers[..k]) && |w.peers[k].matches| > 1
    ensures SearchResource(query, w).outcome == Ambiguous(RemoteWorker(w.peers[k].location))
  {
    var f := NetworkSearch(w.peers);
    assert w.peers[k].matches != [];
    assert !f.outcome.NotFound?;
  }

  /** Two known workers besides the local one; nothing local and an empty
      filesystem, so no cache for `"modelA:vocab"`; the first worker holds
      one pointer. That pointer is returned after a single request, so the
      other worker is never asked. */
  lemma ScenarioFirstWorkerHolds<T>(home: string, ptr: T, other: T)
    ensures SearchResource("modelA:vocab", World([], home, map[], [Peer("P2", [ptr]), Peer("P3", [other])]))
         == Run(Found(ptr), true, 1)
  {
    var w := World([], home, map[], [Peer("P2", [ptr]), Peer("P3", [other])]);
    assert NoneMatch(w.peers[..0]);
    FirstRemoteHitWins("modelA:vocab", w, 0, ptr);
  }
}

=== FILE: seqs.dfy ===
/**
  Order-preserving filtering of sequences: the list comprehension
  `[x for x in xs if keep(x)]` and the dict comprehension with an `if`
  clause both keep the surviving elements in their original order.
 */
module Seqs {

  /** The elements of `s` that satisfy `keep`, in their original order. */
  function Filter<T(!new)>(keep: T -> bool, s: seq<T>): (r: seq<T>)
    ensures |r| <= |s|
    ensures forall x :: x in r <==> x in s && keep(x)
    decreases |s|
  {
    if |s| == 0 then []
    else (if keep(s[0]) then [s[0]] else []) + Filter(keep, s[1..])
  }

  /** Filtering distributes over concatenation, so the relative order of
      the survivors is the order they had in the input. */
  lemma {:induction false} FilterAppend<T(!new)>(keep: T -> bool, a: seq<T>, b: seq<T>)
    ensures Filter(keep, a + b) == Filter(keep, a) + Filter(keep, b)
    decreases |a|
  {
    if |a| == 0 {
      assert a + b == b;
    } else {
      assert (a + b)[0] == a[0];
      assert (a + b)[1..] == a[1..] + b;
      FilterAppend(keep, a[1..], b);
    }
  }

  /** Filtering a single element keeps it exactly when it satisfies `keep`. */
  lemma FilterSingleton<T(!new)>(keep: T -> bool, x: T)
    ensures Filter(keep, [x]) == if keep(x) then [x] else []
  {
    assert [x][1..] == [];
  }

  /** A relation that holds between every earlier and every later element of
      `s` still holds between the earlier and later survivors. */
  lemma {:induction false} FilterKeepsPairwise<T(!new)>(keep: T -> bool, rel: (T, T) -> bool, s: seq<T>)
    requires forall i, j :: 0 <= i < j < |s| ==> rel(s[i], s[j])
    ensures forall i, j :: 0 <= i < j < |Filter(keep, s)| ==> rel(Filter(keep, s)[i], Filter(keep, s)[j])
    decreases |s|
  {
    if |s| > 0 {
      var tail := s[1..];
      FilterKeepsPairwise(keep, rel, tail);
      var ft := Filter(keep, tail);
      forall y | y in ft
        ensures rel(s[0], y)
      {
        var k :| 0 <= k < |tail| && tail[k] == y;
        assert s[k + 1] == y;
      }
      var r := Filter(keep, s);
      if keep(s[0]) {
        assert r == [s[0]] + ft;
        forall i, j | 0 <= i < j < |r|
          ensures rel(r[i], r[j])
        {
          if i == 0 {
            assert r[j] == ft[j - 1];
            assert ft[j - 1] in ft;
          } else {
            assert r[i] == ft[i - 1] && r[j] == ft[j - 1];
          }
        }
      } else {
        assert r == ft;
      }
    }
  }
  /** Every position of `s` other than `i` and `j` is rejected by `keep`. */
  predicate OnlyKeptAt<T>(keep: T -> bool, s: seq<T>, i: int, j: int) {
    forall k :: 0 <= k < |s| && k != i && k != j ==> !keep(s[k])
  }

  /** Nothing kept means every position is rejected. */
  lemma FilterEmptyRejectsAll<T(!new)>(keep: T -> bool, s: seq<T>)
    requires Filter(keep, s) == []
    ensures OnlyKeptAt(keep, s, -1, -1)
  {
    forall k | 0 <= k < |s| ensures !keep(s[k]) {
      assert s[k] in s;
    }
  }

  /** Rejected positions of the tail stay rejected, one place further on,
      behind a rejected head. */
  lemma OnlyKeptAtShift<T>(keep: T -> bool, s: seq<T>, i: int, j: int)
    requires |s| > 0 && !keep(s[0]) && OnlyKeptAt(keep, s[1..], i, j)
    ensures OnlyKeptAt(keep, s, i + 1, j + 1)
  {
    forall k | 0 < k < |s| ensures s[k] == s[1..][k - 1] { }
  }

  /** Behind a kept head, a tail rejected everywhere but at `j` leaves the
      whole rejected everywhere but at the head and `j + 1`. */
  lemma OnlyKeptAtHead<T>(keep: T -> bool, s: seq<T>, j: int)
    requires |s| > 0 && OnlyKeptAt(keep, s[1..], j, j)
    ensures OnlyKeptAt(keep, s, 0, j + 1)
  {
    forall k | 0 < k < |s| ensures s[k] == s[1..][k - 1] { }
  }

  /** A filter that keeps exactly one element keeps it from some position
      `j` of the input, and rejects every other position. */
  lemma {:induction false} FilterOne<T(!new)>(keep: T -> bool, s: seq<T>)
    requires |Filter(keep, s)| == 1
    ensures exists j ::
      && 0 <= j < |s| && s[j] == Filter(keep, s)[0] && keep(s[j])
      && OnlyKeptAt(keep, s, j, j)
    decreases |s|
  {
    var r := Filter(keep, s);
    var t := s[1..];
    var ft := Filter(keep, t);
    if keep(s[0]) {
      assert r == [s[0]] + ft;
      FilterEmptyRejectsAll(keep, t);
      OnlyKeptAtHead(keep, s, -1);
      assert s[0] == r[0];
    } else {
      assert r == ft;
      FilterOne(keep, t);
      var j :| 0 <= j < |t| && t[j] == ft[0] && keep(t[j]) && OnlyKeptAt(keep, t, j, j);
      OnlyKeptAtShift(keep, s, j, j);
      assert s[j + 1] == r[0];
    }
  }

  /** A filter that keeps exactly two elements keeps them from positions
      `i < j` of the input, in that order, and rejects every other
      position. */
  lemma {:induction false} FilterTwo<T(!new)>(keep: T -> bool, s: seq<T>)
    requires |Filter(keep, s)| == 2
    ensures exists i, j ::
      && 0 <= i < j < |s|
      && s[i] == Filter(keep, s)[0] && s[j] == Filter(keep, s)[1]
      && keep(s[i]) && keep(s[j])
      && OnlyKeptAt(keep, s, i, j)
    decreases |s|
  {
    var r := Filter(keep, s);
    var t := s[1..];
    var ft := Filter(keep, t);
    if keep(s[0]) {
      assert r == [s[0]] + ft;
      FilterOne(keep, t);
      var j :| 0 <= j < |t| && t[j] == ft[0] && keep(t[j]) && OnlyKeptAt(keep, t, j, j);
      OnlyKeptAtHead(keep, s, j);
      assert s[0] == r[0] && s[j + 1] == r[1];
    } else {
      assert r == ft;
      FilterTwo(keep, t);
      var i, j :| && 0 <= i < j < |t| && t[i] == ft[0] && t[j] == ft[1] && keep(t[i]) && keep(t[j])
        && OnlyKeptAt(keep, t, i, j);
      OnlyKeptAtShift(keep, s, i, j);
      assert s[i + 1] == r[0] && s[j + 1] == r[1];
    }
  }
}

=== FILE: slices.dfy ===
/**
  Slice normalisation for documents and spans: Python slice bounds that may
  be `None` or negative are turned into a pair of clamped non-negative
  indices, and stepped slices are refused.
 */
module Slices {
  import opened Wrappers

  /** Normalised slice bounds: the half-open index range `[start, stop)`. */
  datatype Bounds = Bounds(start: int, stop: int)

  /** The failed assertion: only a missing step or a step of 1 is supported. */
  datatype SliceError = UnsupportedStep(step: int)

  function Min(a: int, b: int): int { if a <= b then a else b }
  function Max(a: int, b: int): int { if a >= b then a else b }

  /** A bound as written, with a negative value counted from the end and a
      missing one replaced by `absent`; not yet clamped. */
  function Resolve(bound: Option<int>, length: int, absent: int): int {
    match bound
    case None => absent
    case Some(b) => if b < 0 then b + length else b
  }

  /** `normalize_slice(length, start, stop, step)`. It does not reject a
      negative `length`; the clamps then collapse both bounds onto
      `length`. */
  function NormalizeSlice(length: int, start: Option<int>, stop: Option<int>, step: Option<int>)
    : (r: Result<Bounds, SliceError>)
    ensures r.Success? <==> step == None || step == Some(1)
    ensures r.Failure? ==> r.error == UnsupportedStep(step.value)
    ensures r.Success? && length >= 0 ==> 0 <= r.value.start <= r.value.stop <= length
    ensures r.Success? && length < 0 ==> r.value == Bounds(length, length)
  {
    if step.Some? && step.value != 1 then
      Failure(UnsupportedStep(step.value))
    else
      var s := Min(length, Max(0, Resolve(start, length, 0)));
      var t := Min(length, Max(s, Resolve(stop, length, length)));
      Success(Bounds(s, t))
  }

  /** Python's own meaning of `seq[start:stop]` on a sequence of `length`
      items: index `k` is selected when it is a valid index, at or after the
      start bound and before the stop bound, where a missing start means the
      beginning, a missing stop means the end and a negative bound counts
      from the end. */
  predicate PythonSliceSelects(length: int, start: Option<int>, stop: Option<int>, k: int) {
    && 0 <= k < length
    && Resolve(start, length, 0) <= k
    && k < Resolve(stop, length, length)
  }

  /** The normalised range selects exactly the items Python's slice selects. */
  lemma NormalizeSliceSelectsSameItems(length: int, start: Option<int>, stop: Option<int>, step: Option<int>, k: int)
    requires length >= 0
    requires step == None || step == Some(1)
    ensures var b := NormalizeSlice(length, start, stop, step).value;
      b.start <= k < b.stop <==> PythonSliceSelects(length, start, stop, k)
  {
  }

  /** A missing start is the beginning and a missing stop is the end,
      whatever the other bound is. */
  lemma NormalizeSliceDefaults(length: nat, start: Option<int>, stop: Option<int>, step: Option<int>)
    requires step == None || step == Some(1)
    ensures start == None ==> NormalizeSlice(length, start, stop, step).value.start == 0
    ensures stop == None ==> NormalizeSlice(length, start, stop, step).value.stop == length
  {
  }

  /** The documented example: on a length-6 document, `[-4:-1]` is `[2:5]`. */
  lemma NormalizeSliceExample()
    ensures NormalizeSlice(6, Some(-4), Some(-1), None) == Success(Bounds(2, 5))
  {
  }

  /** Normalising already normalised bounds changes nothing. */
  lemma NormalizeSliceIdempotent(length: int, start: Option<int>, stop: Option<int>, step: Option<int>)
    requires length >= 0
    requires step == None || step == Some(1)
    ensures var b := NormalizeSlice(length, start, stop, step).value;
      NormalizeSlice(length, Some(b.start), Some(b.stop), None) == Success(b)
  {
  }
}

=== FILE: tokenizer_regex.dfy ===
/**
  The pattern strings the tokenizer's prefix, suffix and infix compilers
  build before handing them to the regex engine: blank rules are dropped,
  each remaining rule is decorated, and the results are joined with `|`.
  Compiling the pattern is not modelled; `re.escape` is a parameter.
 */
module TokenizerRegex {
  import PyStr
  import Seqs

  /** The alternation operator between rules. */
  const Bar: char := '|'

  /** The marker whose presence as a rule selects escaping in the prefix
      compiler (the deprecated rule format). */
  const DeprecatedMarker: string := "("

  /** `piece.strip()` is truthy. */
  predicate Kept(piece: string) {
    PyStr.Strip(piece) != ""
  }

  /** The rules that survive `if piece.strip()`, in their original order. */
  function Retained(entries: seq<string>): seq<string> {
    Seqs.Filter(Kept, entries)
  }

  /** `[f(piece) for piece in rules]`. */
  function Decorate(rules: seq<string>, f: string -> string): (alts: seq<string>)
    ensures |alts| == |rules|
    ensures forall i :: 0 <= i < |rules| ==> alts[i] == f(rules[i])
  {
    seq(|rules|, i requires 0 <= i < |rules| => f(rules[i]))
  }

  function AnchorStart(piece: string): string { "^" + piece }

  function AnchorEnd(piece: string): string { piece + "$" }

  /** The prefix rules before anchoring: escaped when the deprecated marker
      is one of the rules, as they are otherwise. */
  function PrefixBodies(entries: seq<string>, escape: string -> string): seq<string> {
    if DeprecatedMarker in entries then Decorate(Retained(entries), escape) else Retained(entries)
  }

  /** The expression `compile_prefix_regex(entries)` compiles. */
  function PrefixExpression(entries: seq<string>, escape: string -> string): string {
    PyStr.Join([Bar], Decorate(PrefixBodies(entries, escape), AnchorStart))
  }

  /** The expression `compile_suffix_regex(entries)` compiles. */
  function SuffixExpression(entries: seq<string>): string {
    PyStr.Join([Bar], Decorate(Retained(entries), AnchorEnd))
  }

  /** The expression `compile_infix_regex(entries)` compiles. */
  function InfixExpression(entries: seq<string>): string {
    PyStr.Join([Bar], Retained(entries))
  }

  /** `piece.strip()` is truthy exactly when `piece` is not all whitespace. */
  lemma KeptIffNotBlank(piece: string)
    ensures Kept(piece) <==> !PyStr.IsBlank(piece)
  {
    PyStr.StripEmptyIffBlank(piece);
  }

  /** A rule survives exactly when it is not all whitespace; the survivors
      keep their relative order (the filter distributes over
      concatenation). */
  lemma RetainedIsNonBlankInOrder(entries: seq<string>, more: seq<string>, piece: string)
    ensures piece in Retained(entries) <==> piece in entries && !PyStr.IsBlank(piece)
    ensures Retained(entries + more) == Retained(entries) + Retained(more)
  {
    KeptIffNotBlank(piece);
    Seqs.FilterAppend(Kept, entries, more);
  }

  /** A join of non-empty parts is empty exactly when there are no parts. */
  lemma JoinEmptyIffNoParts(parts: seq<string>)
    requires forall i :: 0 <= i < |parts| ==> parts[i] != ""
    ensures PyStr.Join([Bar], parts) == "" <==> parts == []
  {
  }

  /** No rule survives exactly when every rule is blank. */
  lemma NothingRetainedIffAllBlank(entries: seq<string>)
    ensures Retained(entries) == [] <==> forall p :: p in entries ==> PyStr.IsBlank(p)
  {
    var r := Retained(entries);
    if r != [] {
      assert r[0] in r;
      KeptIffNotBlank(r[0]);
    } else {
      forall p | p in entries ensures PyStr.IsBlank(p) {
        KeptIffNotBlank(p);
        assert p !in r;
      }
    }
  }

  /** Retained rules are never empty. */
  lemma RetainedNonEmpty(entries: seq<string>)
    ensures forall i :: 0 <= i < |Retained(entries)| ==> Retained(entries)[i] != ""
  {
    var r := Retained(entries);
    forall i | 0 <= i < |r| ensures r[i] != "" {
      assert r[i] in r;
    }
  }

  /** Anchoring every rule leaves no empty alternative. */
  lemma AnchoredNonEmpty(rules: seq<string>)
    ensures forall i :: 0 <= i < |rules| ==> Decorate(rules, AnchorStart)[i] != ""
    ensures forall i :: 0 <= i < |rules| ==> Decorate(rules, AnchorEnd)[i] != ""
  {
    forall i | 0 <= i < |rules| ensures Decorate(rules, AnchorStart)[i] != "" {
      assert Decorate(rules, AnchorStart)[i][0] == '^';
    }
    forall i | 0 <= i < |rules| ensures Decorate(rules, AnchorEnd)[i] != "" {
      var alt := Decorate(rules, AnchorEnd)[i];
      assert alt[|alt| - 1] == '$';
    }
  }

  /** Every rule blank (including no rules at all) is exactly when each of
      the three expressions is the empty string. */
  lemma EmptyExpressionIffAllBlank(entries: seq<string>, escape: string -> string)
    ensures PrefixExpression(entries, escape) == "" <==> forall p :: p in entries ==> PyStr.IsBlank(p)
    ensures SuffixExpression(entries) == "" <==> forall p :: p in entries ==> PyStr.IsBlank(p)
    ensures InfixExpression(entries) == "" <==> forall p :: p in entries ==> PyStr.IsBlank(p)
  {
    NothingRetainedIffAllBlank(entries);
    var r := Retained(entries);
    var bodies := PrefixBodies(entries, escape);
    assert |bodies| == |r|;
    AnchoredNonEmpty(bodies);
    JoinEmptyIffNoParts(Decorate(bodies, AnchorStart));
    AnchoredNonEmpty(r);
    JoinEmptyIffNoParts(Decorate(r, AnchorEnd));
    RetainedNonEmpty(entries);
    JoinEmptyIffNoParts(r);
  }

  /** Removing a blank rule from anywhere leaves the retained rules alone. */
  lemma RetainedSkipsBlank(before: seq<string>, blank: string, after: seq<string>)
    requires PyStr.IsBlank(blank)
    ensures Retained(before + [blank] + after) == Retained(before + after)
  {
    KeptIffNotBlank(blank);
    Seqs.FilterAppend(Kept, before + [blank], after);
    Seqs.FilterAppend(Kept, before, [blank]);
    Seqs.FilterSingleton(Kept, blank);
    Seqs.FilterAppend(Kept, before, after);
  }

  /** Inserting a rule other than the marker does not change whether the
      marker is one of the rules. */
  lemma MarkerMembershipIgnoresOtherRule(before: seq<string>, rule: string, after: seq<string>)
    requires rule != DeprecatedMarker
    ensures DeprecatedMarker in before + [rule] + after <==> DeprecatedMarker in before + after
  {
    var with := before + [rule] + after;
    var without := before + after;
    if DeprecatedMarker in with {
      var i :| 0 <= i < |with| && with[i] == DeprecatedMarker;
      if i < |before| {
        assert without[i] == DeprecatedMarker;
      } else {
        assert without[i - 1] == DeprecatedMarker;
      }
    }
    if DeprecatedMarker in without {
      var i :| 0 <= i < |without| && without[i] == DeprecatedMarker;
      if i < |before| {
        assert with[i] == DeprecatedMarker;
      } else {
        assert with[i + 1] == DeprecatedMarker;
      }
    }
  }

  /** Blank rules never matter: inserting one anywhere changes none of the
      expressions. In particular it cannot switch the prefix compiler into
      the escaping branch, since the marker is not blank. */
  lemma BlankRuleIsIgnored(before: seq<string>, blank: string, after: seq<string>, escape: string -> string)
    requires PyStr.IsBlank(blank)
    ensures PrefixExpression(before + [blank] + after, escape) == PrefixExpression(before + after, escape)
    ensures SuffixExpression(before + [blank] + after) == SuffixExpression(before + after)
    ensures InfixExpression(before + [blank] + after) == InfixExpression(before + after)
  {
    RetainedSkipsBlank(before, blank, after);
    assert !PyStr.IsSpace(DeprecatedMarker[0]);
    assert !PyStr.IsBlank(DeprecatedMarker);
    MarkerMembershipIgnoresOtherRule(before, blank, after);
  }

  /** Two rules that are not blank are both retained, in order. */
  lemma RetainedPair(a: string, b: string)
    requires !PyStr.IsBlank(a) && !PyStr.IsBlank(b)
    ensures Retained([a, b]) == [a, b]
  {
    KeptIffNotBlank(a);
    KeptIffNotBlank(b);
    Seqs.FilterSingleton(Kept, a);
    Seqs.FilterSingleton(Kept, b);
    Seqs.FilterAppend(Kept, [a], [b]);
    assert [a] + [b] == [a, b];
  }

  /** Two alternatives joined by `|`. */
  lemma JoinPair(x: string, y: string)
    ensures PyStr.Join([Bar], [x, y]) == x + "|" + y
  {
    PyStr.JoinCons([Bar], x, [y]);
    assert [x] + [y] == [x, y];
  }

  /** The prefix rules of two non-blank rules, before anchoring. */
  lemma PrefixBodiesOfPair(a: string, b: string, escape: string -> string)
    requires !PyStr.IsBlank(a) && !PyStr.IsBlank(b)
    ensures PrefixBodies([a, b], escape) == if DeprecatedMarker in [a, b] then [escape(a), escape(b)] else [a, b]
  {
    RetainedPair(a, b);
  }

  /** Two rules anchored at the start and joined by `|`. */
  lemma AnchoredPair(x: string, y: string)
    ensures PyStr.Join([Bar], Decorate([x, y], AnchorStart)) == "^" + x + "|^" + y
  {
    assert Decorate([x, y], AnchorStart) == ["^" + x, "^" + y];
    JoinPair("^" + x, "^" + y);
    assert ("^" + x) + "|" + ("^" + y) == "^" + x + "|^" + y;
  }

  /** The prefix expression of two non-blank rules. */
  lemma PrefixExpressionOfPair(a: string, b: string, escape: string -> string)
    requires !PyStr.IsBlank(a) && !PyStr.IsBlank(b)
    ensures DeprecatedMarker !in [a, b] ==> PrefixExpression([a, b], escape) == "^" + a + "|^" + b
    ensures DeprecatedMarker in [a, b] ==> PrefixExpression([a, b], escape) == "^" + escape(a) + "|^" + escape(b)
  {
    PrefixBodiesOfPair(a, b, escape);
    if DeprecatedMarker in [a, b] {
      AnchoredPair(escape(a), escape(b));
    } else {
      AnchoredPair(a, b);
    }
  }

  /** Escaping is chosen by element membership, not by a substring test: a
      rule that merely contains `(` leaves the rules unescaped. */
  lemma ParenInsideRuleDoesNotEscape(escape: string -> string)
    ensures PrefixExpression(["(a", "b"], escape) == "^(a|^b"
  {
    var a, b := "(a", "b";
    assert DeprecatedMarker !in [a, b] by {
      assert |a| != |DeprecatedMarker| && b[0] != DeprecatedMarker[0];
    }
    assert !PyStr.IsBlank(a) && !PyStr.IsBlank(b) by {
      assert !PyStr.IsSpace(a[0]) && !PyStr.IsSpace(b[0]);
    }
    PrefixExpressionOfPair(a, b, escape);
    assert "^" + a + "|^" + b == "^(a|^b";
  }

  /** A rule equal to `(` escapes every retained rule, itself included. */
  lemma ParenRuleEscapesAll(escape: string -> string)
    ensures PrefixExpression(["(", "b"], escape) == "^" + escape("(") + "|^" + escape("b")
  {
    var a, b := "(", "b";
    assert [a, b][0] == DeprecatedMarker;
    assert !PyStr.IsSpace(a[0]) && !PyStr.IsSpace(b[0]);
    PrefixExpressionOfPair(a, b, escape);
  }

  /** Alternatives free of `|` are recovered by splitting their join. */
  lemma AlternativesSplitBack(alts: seq<string>)
    requires alts != []
    requires forall i :: 0 <= i < |alts| ==> Bar !in alts[i]
    ensures PyStr.Split(PyStr.Join([Bar], alts), Bar) == alts
  {
    forall p | p in alts ensures Bar !in p {
      var i :| 0 <= i < |alts| && alts[i] == p;
    }
    PyStr.SplitJoin(alts, Bar);
  }

  /** The prefix expression splits back on `|` into the retained rules, each
      anchored with `^` (escaped first in the deprecated format), provided
      no alternative itself contains `|`. */
  lemma PrefixExpressionAlternatives(entries: seq<string>, escape: string -> string)
    requires Retained(entries) != []
    requires forall p :: p in Retained(entries) ==> Bar !in p && (DeprecatedMarker in entries ==> Bar !in escape(p))
    ensures var r := Retained(entries);
      var alts := PyStr.Split(PrefixExpression(entries, escape), Bar);
      && |alts| == |r|
      && forall i :: 0 <= i < |r| ==>
           alts[i] == "^" + (if DeprecatedMarker in entries then escape(r[i]) else r[i])
  {
    var r := Retained(entries);
    var bodies := PrefixBodies(entries, escape);
    forall i | 0 <= i < |bodies| ensures Bar !in AnchorStart(bodies[i]) {
      assert r[i] in r;
    }
    AlternativesSplitBack(Decorate(bodies, AnchorStart));
  }

  /** The suffix expression splits back on `|` into the retained rules, each
      anchored with `$`, provided no rule contains `|`. */
  lemma SuffixExpressionAlternatives(entries: seq<string>)
    requires Retained(entries) != []
    requires forall p :: p in Retained(entries) ==> Bar !in p
    ensures var r := Retained(entries);
      var alts := PyStr.Split(SuffixExpression(entries), Bar);
      && |alts| == |r|
      && forall i :: 0 <= i < |r| ==> alts[i] == r[i] + "$"
  {
    var r := Retained(entries);
    forall i | 0 <= i < |r| ensures Bar !in AnchorEnd(r[i]) {
      assert r[i] in r;
    }
    AlternativesSplitBack(Decorate(r, AnchorEnd));
  }

  /** The infix expression splits back on `|` into exactly the retained rules,
      unchanged, provided no rule contains `|`. */
  lemma InfixExpressionAlternatives(entries: seq<string>)
    requires Retained(entries) != []
    requires forall p :: p in Retained(entries) ==> Bar !in p
    ensures PyStr.Split(InfixExpression(entries), Bar) == Retained(entries)
  {
    PyStr.SplitJoin(Retained(entries), Bar);
  }

  /** Decorating distributes over concatenation. */
  lemma DecorateAppend(x: seq<string>, y: seq<string>, f: string -> string)
    ensures Decorate(x + y, f) == Decorate(x, f) + Decorate(y, f)
  {
  }

  /** Rule order is kept: the suffix and infix expressions of two rule lists
      laid end to end are the two expressions joined by `|`. */
  lemma ExpressionOfConcatenation(a: seq<string>, b: seq<string>)
    requires Retained(a) != [] && Retained(b) != []
    ensures SuffixExpression(a + b) == SuffixExpression(a) + "|" + SuffixExpression(b)
    ensures InfixExpression(a + b) == InfixExpression(a) + "|" + InfixExpression(b)
  {
    Seqs.FilterAppend(Kept, a, b);
    PyStr.JoinAppend([Bar], Retained(a), Retained(b));
    DecorateAppend(Retained(a), Retained(b), AnchorEnd);
    PyStr.JoinAppend([Bar], Decorate(Retained(a), AnchorEnd), Decorate(Retained(b), AnchorEnd));
  }
}

=== FILE: wrappers.dfy ===
/**
  Failure-carrying result types shared by the model: `Option` for Python's
  "value or None" returns and `Result` for a value or the condition that a
  failed `assert` in the code would raise.
 */
module Wrappers {

  /** A value, or Python's `None`. */
  datatype Option<+T> = None | Some(value: T)

  /** A computed value, or the error that stopped the computation. */
  datatype Result<+R, +E> = Success(value: R) | Failure(error: E)
}
